=== FILE: README.md ===
# MusicStream front end: the track store and player decisions in Dafny

This project models the logic of a browser music library written with
Angular and NgRx. It covers five parts:

- the `tracks` slice of the store and its reducer;
- the selectors over that slice;
- the two effects that turn storage-service outcomes into follow-up actions;
- the decision rules of the track-detail page;
- the decision logic of the audio service.

Browser calls become parameters (oracles). These are the storage service's
promise outcomes, `URL.createObjectURL`, the outcome of `audio.play()`,
`audio.paused`, `audio.currentTime` and `audio.duration`. Everything else is
a pure function over immutable datatypes.

Modules, one per source file:

- `Common`: `Option`, and a service promise's `Outcome` with its rejection `Reason`.
- `JsNumber`: the JavaScript `number` semantics the code relies on. This
  covers NaN and the infinities, `Math.min`/`Math.max`, `*`, `/`, and the
  truncating remainder `%`.
- `Models`: `Track`, `MusicCategory`, `PlaybackStatus`.
- `TrackActions`: the action union.
- `TrackReducer`: `TrackState`, `InitialState`, `Reduce`, and runs of actions.
- `TrackSelectors`: `SelectAllTracks`, `FindIndex`, `SelectTrackById`.
- `TrackEffects`: `loadTracks$`, `addTrack$`, and a dispatch followed by its follow-up.
- `AudioService`: `play`, the media-event listeners, `seek`, `setVolume`, `next`, `previous`.
- `TrackDetail`: `canGoNext$`, `canGoPrevious$`, `onSeek`, `onVolumeChange`,
  `getStatusMessage`, `onPlay`.

Where the code behaves differently from what its names suggest, the model follows the code:

- `setVolume` does not clamp what it dispatches. Only the gain level is floored at 0.0001.
- A failed load never clears `loading`, and no handler ever writes `error`.
- `play` records the new track as current before resolving its source. After
  a resolution failure, `currentTrack` is therefore the failed track, not the
  previous one.
- `Track.duration` is declared a number, but the track form submits it as
  `undefined` when the file's metadata has not been probed yet
  (`track-form.component.ts`, lines 131 and 205). The model makes it
  optional, and `next`/`previous` on such a track throw and do nothing.
- `previous` uses JavaScript's truncating `%`. On a track shorter than one
  second it can compute a negative position.
- The store registers only the `tracks` reducer, so there is no player
  slice. Player behaviour is modelled as the actions the service and the
  page dispatch.

## Model

| member | source | states |
|---|---|---|
| `TrackReducer.Reduce` | music/src/app/store/reducers/track.reducer.ts:17-32 | Unhandled actions (failures, update, delete, player actions) return the state unchanged. `error` is never written. `loadTracks` sets `loading` and keeps the list. `loadTracksSuccess` installs exactly its payload and clears `loading`. `addTrackSuccess` appends at the end, keeping the old list as a prefix, with no dedup. |
| `TrackReducer.RunKeepsError` | music/src/app/store/reducers/track.reducer.ts:17-32 | No sequence of actions changes `error`. |
| `TrackReducer.ReachableErrorIsNull` | music/src/app/store/reducers/track.reducer.ts:11-15 | Every state reachable from the initial state (empty list, not loading, null error) has a null `error`. |
| `TrackReducer.RunWithoutLoadSuccess` | music/src/app/store/reducers/track.reducer.ts:19-31 | Without a `loadTracksSuccess`, the list becomes the old list followed by the added tracks in dispatch order. Nothing is ever removed. `loading` ends true iff it started true or some `loadTracks` occurred. |
| `TrackReducer.LoadingSurvivesUntilSuccess` | music/src/app/store/reducers/track.reducer.ts:19-22 | After `loadTracks` and any actions that are not a load success, `loading` is still true. |
| `TrackReducer.LastLoadDeterminesTracks` | music/src/app/store/reducers/track.reducer.ts:23-31 | The list is the payload of the last `loadTracksSuccess` followed by every track added after it. `loading` is true iff a `loadTracks` came after that success. |
| `TrackSelectors.SelectTrackState` | music/src/app/store/selectors/track.selectors.ts:5 | Returns the root state's `tracks` slice. |
| `TrackSelectors.SelectAllTracks` | music/src/app/store/selectors/track.selectors.ts:7-10 | Returns the slice's list unchanged, in store order. |
| `TrackSelectors.ListedTracksAreFound` | music/src/app/store/selectors/track.selectors.ts:7-15 | Every listed track's id is found by the lookup, and every track the lookup returns is in the list. |
| `TrackSelectors.FindIndex` | music/src/app/store/selectors/track.selectors.ts:14 | Returns -1 iff no track has the id. Otherwise it returns the lowest index whose track has the id. |
| `TrackSelectors.SelectTrackById` | music/src/app/store/selectors/track.selectors.ts:12-15 | Returns none iff no track of the slice has the id. A returned track has that id, is an element of the list, and is the lowest-index match. |
| `TrackSelectors.FindIndexAppend` | music/src/app/store/selectors/track.selectors.ts:14 | Appending a track never changes a match already found. |
| `TrackSelectors.DuplicateAddIsShadowed` | music/src/app/store/selectors/track.selectors.ts:12-15 | After adding a track whose id is already present, the lookup by that id still returns the earlier track. |
| `TrackSelectors.LookupAfterLoad` | music/src/app/store/selectors/track.selectors.ts:12-15 | After a reload with `ts`, the lookup finds a track iff `ts` holds that id. |
| `TrackEffects.LoadTracksEffect` | music/src/app/store/effects/track.effects.ts:10-20 | Exactly one follow-up for a `loadTracks` whose call settles, none otherwise; a call that never settles dispatches nothing. It is a success carrying the service's tracks iff the call resolved, and a failure carrying `error.message` iff it was rejected. |
| `TrackEffects.AddTrackEffect` | music/src/app/store/effects/track.effects.ts:22-32 | Exactly one follow-up for an `addTrack` whose call settles, none otherwise. It is a success carrying the service's resolved track, or a failure carrying `error.message`, never both. |
| `TrackEffects.Effects` | music/src/app/store/effects/track.effects.ts:10-32 | Only `loadTracks` and `addTrack` produce a follow-up, exactly one each when their call settles. No follow-up triggers a further effect. |
| `TrackEffects.FailedLoadKeepsLoading` | music/src/app/store/effects/track.effects.ts:16 | A rejected load leaves the list and `error` unchanged and `loading` true. |
| `TrackEffects.PendingLoadKeepsLoading` | music/src/app/services/track.service.ts:46-61 | A load whose database open never settles sets `loading` and leaves it true, with the list and `error` unchanged. |
| `TrackEffects.SuccessfulLoadReplaces` | music/src/app/store/effects/track.effects.ts:15 | A resolved load installs exactly the service's tracks and clears `loading`. |
| `TrackEffects.AddTrackAppends` | music/src/app/store/effects/track.effects.ts:22-32 | An add that the service resolves with `t` appends `t` at the end. A rejected or never-settled add changes nothing. |
| `TrackEffects.DispatchNeverSetsError` | music/src/app/store/effects/track.effects.ts:10-32 | Through any sequence of dispatches with their follow-ups, each settling its service calls its own way, `error` keeps its value. |
| `Common.MessageOf` | music/src/app/store/effects/track.effects.ts:16 | `error.message` is defined only for an `Error` reason. Plain-string rejections yield undefined. |
| `AudioService.ResolveSource` | music/src/app/services/audio.service.ts:100-109 | No source iff there is neither an attached file nor a non-empty `fileUrl`. An attached file wins over any `fileUrl`; otherwise the `fileUrl` is used as is. |
| `AudioService.PlayTrack` | music/src/app/services/audio.service.ts:86-146 | Same id: no resolution, state and `src` unchanged. New id: recorded as current before resolution, so also on failure. The old `src` is revoked iff the track switches and `src` is a blob URL. Source priority is a fresh object URL for a file, then `fileUrl`. With no source, only ERROR is dispatched and play is not attempted. Otherwise exactly one of play or ERROR is dispatched. The registry of live object URLs loses exactly the revoked URL and gains exactly the one created for an attached file, so no created object URL leaks. |
| `AudioService.InitialPlayerTracked` | music/src/app/services/audio.service.ts:12-19 | The service starts with no track, no source and no live object URL. |
| `AudioService.SessionKeepsBlobsTracked` | music/src/app/services/audio.service.ts:86-146 | Every run of `play` calls keeps the live object URLs within the element's current source. |
| `AudioService.SessionFromStartHoldsAtMostCurrentBlob` | music/src/app/services/audio.service.ts:86-146 | From the initial state, at most one object URL is live, and it is the current `src`. |
| `AudioService.RetryAfterFailedResolutionIsStale` | music/src/app/services/audio.service.ts:92-131 | After a failed resolution, a later `play` of the same id skips resolution, even when it has a source now, and keeps the old `src`. |
| `AudioService.OnMediaEvent` | music/src/app/services/audio.service.ts:33-84 | playing→PLAYING, pause→PAUSED, ended→STOPPED, error→ERROR, waiting→BUFFERING. canplay→PAUSED only when paused. timeupdate→current time. loadedmetadata dispatches nothing. No event dispatches LOADING. |
| `AudioService.EventStatusCoverage` | music/src/app/services/audio.service.ts:46-83 | Every status except LOADING is reported by some event. Only the `playing` event reports PLAYING. |
| `AudioService.Seek` | music/src/app/services/audio.service.ts:162-173 | The position changes iff `position * duration` is finite, that is iff both are finite. The new time is their product. |
| `AudioService.SetVolumeStep` | music/src/app/services/audio.service.ts:175-183 | The raw, unclamped volume is dispatched iff the gain level is finite. For NaN and +Infinity the gain update throws and nothing is dispatched. The gain level is the volume at or above 0.0001 and exactly 0.0001 below it (including -Infinity). |
| `AudioService.NegativeVolumeReachesStore` | music/src/app/services/audio.service.ts:175-183 | `setVolume(-5)` and `setVolume(0)` reach the same gain level but dispatch different volumes. |
| `AudioService.Next` | music/src/app/services/audio.service.ts:185-191 | A zero or undefined duration aborts. Otherwise the new time is t+1 minus a whole multiple of d, and, for d > 0, with the sign of t+1 and less than d in magnitude, which pins it. It is t+1 when 0 ≤ t+1 < d, and wraps to t+1-d when d ≤ t+1 < 2d. The nested `play` is for the same track. |
| `AudioService.Previous` | music/src/app/services/audio.service.ts:193-198 | A zero or undefined duration aborts. Otherwise the new time is t-1+d minus a whole multiple of d. For d > 0 it lies in [0, d) when t-1+d ≥ 0 and in (-d, 0] when t-1+d < 0, which pins it, negative results included. It is t-1 for t in [1, d+1) and t-1+d when that is in [0, d). `play` is never called. |
| `AudioService.PreviousOnShortTrackIsNegative` | music/src/app/services/audio.service.ts:194 | On a 0.5 s track at 0.1 s, `previous` computes -0.4. |
| `JsNumber.Rem` | music/src/app/services/audio.service.ts:186 | JavaScript `%`: the dividend minus a whole multiple of the divisor. For a positive divisor, the result lies in [0, d) for a non-negative dividend and in (-d, 0] for a negative one. |
| `JsNumber.RemIsUnique` | music/src/app/services/audio.service.ts:186 | For a positive divisor, the sign-matching remainder strictly inside one period is the only value `%` can return, so it pins the result. |
| `JsNumber.RemNearPeriod` | music/src/app/services/audio.service.ts:185-198 | A dividend within one period of [0, d) is kept, or wraps once; a dividend in (-d, 0) stays negative. |
| `JsNumber.ClampUnit` | music/src/app/pages/track-detail/track-detail.component.ts:171 | NaN stays NaN. Any other input lands in [0, 1]: in-range values are kept, values below go to 0, values above go to 1. |
| `TrackDetail.CanGoNext` | music/src/app/pages/track-detail/track-detail.component.ts:49-58 | False without a playlist or current track. Otherwise true iff the playlist is non-empty and the id's first occurrence is not the last entry. An absent id therefore yields true on a non-empty playlist. |
| `TrackDetail.CanGoPrevious` | music/src/app/pages/track-detail/track-detail.component.ts:60-69 | False without a playlist or current track. Otherwise true iff (the id occurs and is not first) or the time exceeds 3 s. An absent id depends on the time only. |
| `TrackDetail.OnSeek` | music/src/app/pages/track-detail/track-detail.component.ts:167-173 | A click inside a bar of positive width seeks to the clicked fraction of the width; clicks left or right of it pin to 0 or 1. The position always lies in [0, 1] except NaN, from a zero-width click at the left edge. The time is the audio service's seek of that position, so NaN moves nothing, and lies in [0, duration]. |
| `TrackDetail.ClickedPosition` | music/src/app/pages/track-detail/track-detail.component.ts:167-171 | On a bar of positive width, the clamped click fraction times the width is the click's offset inside the bar, and 0 or 1 outside it. |
| `TrackDetail.OnVolumeChange` | music/src/app/pages/track-detail/track-detail.component.ts:175-181 | A null volume does nothing. A NaN volume survives the clamp and dispatches nothing. Any other volume dispatches `clamp(v, 0, 1)`, which is in [0, 1], and sets a finite gain level in [0.0001, 1]. An in-range volume is passed on unchanged. |
| `TrackDetail.GetStatusMessage` | music/src/app/pages/track-detail/track-detail.component.ts:183-194 | BUFFERING, ERROR and LOADING each map to their own banner text, and every other string to the empty message. |
| `TrackDetail.OnPlay` | music/src/app/pages/track-detail/track-detail.component.ts:86-128 | No track: nothing happens. A non-empty `fileUrl` is used as is. Otherwise the stored track's `fileUrl` is used once the lookup resolves; while the lookup never settles, `onPlay` neither plays nor reports. If both locators are empty (or the lookup fails), ERROR is dispatched and `play` is never called. The played track differs from the given one only in a non-empty `fileUrl`. |
| `TrackDetail.OnPlayNeverFailsResolution` | music/src/app/pages/track-detail/track-detail.component.ts:103-118 | A track that `onPlay` hands to the service always has a source, so resolution cannot fail on it. |
| `Models.StatusOfValue` | music/src/app/models/playerstate.interface.ts:10-17 | Inverse of the status enum's string values: it maps a string to the one status with that value, or to none. |

## Left out

- `track.service.ts` and `storage.service.ts` are not part of this model.
  They pass calls straight through to IndexedDB and `FileReader`. Their
  results enter only as oracle outcomes (`Services`, and the `stored`
  argument of `OnPlay`). The track service rejects with plain strings and
  the storage service with `request.error`; no error taxonomy is modelled
  beyond `Reason`, which tells an `Error` object from any other value. Their one observable
  quirk is covered: the track service opens the database (and, in
  `getTrackById`, reads it) without an error handler, so a failure never
  settles (`Outcome.Pending`), both for the effects and for the `stored`
  lookup of `TrackDetail.OnPlay`.
- Web Audio: gain ramps, fade durations, the `log10` volume curve and
  `AudioContext.resume` are not modelled. These are floating-point signal
  processing and timing. `SetVolumeStep` models the level fed to the curve, and whether
  `setValueAtTime` rejects the non-finite gain it yields.
- `pause()`: a fade-out, then a `setTimeout` that pauses the element and
  dispatches `pause`. It has no decision logic beyond timing.
- `getCurrentTime()`, `audio.paused` and `audio.duration` are parameters.
- `next`/`previous` call `this.audio.play()` without awaiting it. A
  rejection there is unhandled and dispatches nothing, so it does not appear.
- Assigning a negative `currentTime` (see `AudioService.Previous`): the
  browser's own clamping of that value is not modelled.
- The `loadedmetadata` listener's `setDuration` action: it is not declared
  in the action file, so the listener throws. It is modelled as dispatching nothing.
- `canGoNext$`/`canGoPrevious$` read `state.player`, but no player slice is
  registered. The predicates take the playlist and current track as arguments.
- Concurrency: RxJS `mergeMap` interleaving and promise ordering. A trigger
  and its follow-up are one atomic step (`TrackEffects.Dispatch`).
  `AudioService.PlayTrack` is also one atomic step, although `play` awaits
  `audioContext.resume()` and `audio.play()`; two overlapping calls can
  interleave between those awaits, which the model does not represent.
- Selector memoization. Selectors are pure functions here, so they cannot
  change the state.
- Numbers: finite values are exact reals. Rounding and negative zero are not modelled.
- `track-form.component.ts`, `library.component.ts`, `app.config.ts`, and
  the duplicate action declarations in `store/track.actions.ts`: forms,
  routing, id generation and provider wiring.
- `ngOnInit`'s initial `onVolumeChange(0.7)` is covered by `OnVolumeChange`.
  No separate member models it.

=== FILE: audio_service.dfy ===
/** The decision logic of the audio service: how `play` chooses and loads a
    source, how media-element events become status actions, the guards in
    `seek` and `setVolume`, and the position arithmetic of `next` and
    `previous`. Browser calls (`createObjectURL`, `audio.play()`) are oracle
    parameters; the Web Audio gain graph is not modelled. */
module AudioService {
  import opened Common
  import opened JsNumber
  import opened Models
  import opened TrackActions

  /** What the service knows: the track it last accepted, the media
      element's `src`, and the object URLs this service created and has not
      revoked yet. */
  datatype Player = Player(currentTrack: Option<Track>, src: string, liveBlobs: set<string>)

  const InitialPlayer: Player := Player(None, "", {})

  const ConfigErrorMessage: string := "Format audio non supporté ou fichier invalide"
  const PlaybackErrorMessage: string := "Impossible de lire le fichier audio"

  predicate IsBlobUrl(u: string) {
    |u| >= 5 && u[..5] == "blob:"
  }

  /** `createObjectURL` hands out a blob URL that is in use nowhere. */
  predicate FreshBlob(p: Player, url: string) {
    IsBlobUrl(url) && url !in p.liveBlobs && url != p.src
  }

  /** No object URL leaks: the only one this service may still hold is the
      element's current source. */
  ghost predicate BlobsTracked(p: Player) {
    p.liveBlobs <= {p.src} && forall u :: u in p.liveBlobs ==> IsBlobUrl(u)
  }

  /** `this.currentTrack?.id !== track.id` */
  predicate SwitchesTrack(p: Player, track: Track) {
    p.currentTrack.None? || p.currentTrack.value.id != track.id
  }

  /** The source `play` loads: a fresh object URL for an attached file,
      else a non-empty `fileUrl`, else none (the service throws). */
  function ResolveSource(track: Track, freshBlob: string): (r: Option<string>)
    ensures r.None? <==> track.audioFile.None? && track.fileUrl == ""
    // an attached file wins over any `fileUrl`
    ensures track.audioFile.Some? ==> r == Some(freshBlob)
    ensures r.Some? && track.audioFile.None? ==> r.value == track.fileUrl
  {
    if track.audioFile.Some? then Some(freshBlob)
    else if track.fileUrl != "" then Some(track.fileUrl)
    else None
  }

  /** The outcome of `await this.audio.play()`. */
  function PlayAttempt(track: Track, playResolves: bool): Action {
    if playResolves then Play(track) else SetStatus(Error, Some(PlaybackErrorMessage))
  }

  /** One call of `play(track)`: the new service state, the object URL it
      revoked, whether it loaded a new source, and what it dispatched. */
  datatype PlayStep = PlayStep(player: Player, revoked: Option<string>, reloaded: bool, dispatched: seq<Action>)

  function PlayTrack(p: Player, track: Track, freshBlob: string, playResolves: bool): (r: PlayStep)
    requires FreshBlob(p, freshBlob)
    // the same track again: no source resolution at all
    ensures !SwitchesTrack(p, track) ==> r.player == p && r.revoked.None? && !r.reloaded
    // a different track is recorded before resolution, so even when it fails
    ensures SwitchesTrack(p, track) ==> r.player.currentTrack == Some(track)
    // the old source is revoked only on a switch away from a blob URL
    ensures r.revoked.Some? <==> SwitchesTrack(p, track) && IsBlobUrl(p.src)
    ensures r.revoked.Some? ==> r.revoked.value == p.src && p.src !in r.player.liveBlobs
    // source priority: attached file, then fileUrl
    ensures r.reloaded <==> SwitchesTrack(p, track) && (track.audioFile.Some? || track.fileUrl != "")
    ensures r.reloaded && track.audioFile.Some? ==> r.player.src == freshBlob
    ensures r.reloaded && track.audioFile.None? ==> r.player.src == track.fileUrl
    ensures !r.reloaded ==> r.player.src == p.src
    // exactly one dispatch: the resolution error (and no play attempt), or
    // the play attempt's outcome
    ensures SwitchesTrack(p, track) && !r.reloaded ==>
      r.dispatched == [SetStatus(Error, Some(ConfigErrorMessage))]
    ensures !SwitchesTrack(p, track) || r.reloaded ==> r.dispatched == [PlayAttempt(track, playResolves)]
    // the registry drops exactly the revoked URL and gains exactly the
    // object URL created for an attached file
    ensures r.player.liveBlobs ==
      (if r.revoked.Some? then p.liveBlobs - {p.src} else p.liveBlobs)
      + (if r.reloaded && track.audioFile.Some? then {freshBlob} else {})
    ensures BlobsTracked(p) ==> BlobsTracked(r.player)
  {
    if !SwitchesTrack(p, track) then
      PlayStep(p, None, false, [PlayAttempt(track, playResolves)])
    else
      var revoked := if IsBlobUrl(p.src) then Some(p.src) else None;
      var live := if revoked.Some? then p.liveBlobs - {p.src} else p.liveBlobs;
      match ResolveSource(track, freshBlob)
      case None =>
        PlayStep(Player(Some(track), p.src, live), revoked, false, [SetStatus(Error, Some(ConfigErrorMessage))])
      case Some(url) =>
        var live' := if track.audioFile.Some? then live + {freshBlob} else live;
        PlayStep(Player(Some(track), url, live'), revoked, true, [PlayAttempt(track, playResolves)])
  }

  /** After a switch whose source could not be resolved, the failed track is
      already current: asking again for a track with the same id, even one
      that now has a source, skips resolution and plays the old `src`. */
  lemma RetryAfterFailedResolutionIsStale(p: Player, t: Track, t': Track, b: string, b': string, ok: bool, ok': bool)
    requires FreshBlob(p, b) && SwitchesTrack(p, t)
    requires t.audioFile.None? && t.fileUrl == ""
    requires t'.id == t.id
    requires FreshBlob(PlayTrack(p, t, b, ok).player, b')
    ensures PlayTrack(p, t, b, ok).dispatched == [SetStatus(Error, Some(ConfigErrorMessage))]
    ensures !PlayTrack(PlayTrack(p, t, b, ok).player, t', b', ok').reloaded
    ensures PlayTrack(PlayTrack(p, t, b, ok).player, t', b', ok').player.src == p.src
  {}

  /** One call of `play`, with its browser oracles. */
  datatype PlayCall = PlayCall(track: Track, freshBlob: string, playResolves: bool)

  /** The service state after a run of `play` calls; None if the browser
      ever hands out an object URL that is not fresh. */
  function PlaySession(p: Player, calls: seq<PlayCall>): Option<Player>
    decreases |calls|
  {
    if calls == [] then Some(p)
    else if !FreshBlob(p, calls[0].freshBlob) then None
    else PlaySession(PlayTrack(p, calls[0].track, calls[0].freshBlob, calls[0].playResolves).player, calls[1..])
  }

  /** The service starts with no track, no source and no object URL. */
  lemma InitialPlayerTracked()
    ensures BlobsTracked(InitialPlayer)
  {}

  /** Any run of `play` calls keeps the object URLs tracked. */
  lemma {:induction false} SessionKeepsBlobsTracked(p: Player, calls: seq<PlayCall>)
    requires BlobsTracked(p)
    ensures PlaySession(p, calls).Some? ==> BlobsTracked(PlaySession(p, calls).value)
    decreases |calls|
  {
    if calls != [] && FreshBlob(p, calls[0].freshBlob) {
      var c := calls[0];
      SessionKeepsBlobsTracked(PlayTrack(p, c.track, c.freshBlob, c.playResolves).player, calls[1..]);
    }
  }

  /** From the service's initial state, at most one object URL is ever live,
      and it is the element's current source. */
  lemma SessionFromStartHoldsAtMostCurrentBlob(calls: seq<PlayCall>)
    ensures PlaySession(InitialPlayer, calls).Some? ==>
      PlaySession(InitialPlayer, calls).value.liveBlobs <= {PlaySession(InitialPlayer, calls).value.src}
  {
    InitialPlayerTracked();
    SessionKeepsBlobsTracked(InitialPlayer, calls);
  }

  /** The events the service listens to on its media element. */
  datatype MediaEvent =
    | LoadedMetadataEvent
    | TimeUpdateEvent
    | PlayingEvent
    | PauseEvent
    | EndedEvent
    | ErrorEvent
    | WaitingEvent
    | CanPlayEvent

  /** What the listener for `ev` dispatches, given `audio.paused` and
      `audio.currentTime`. The `loadedmetadata` listener calls
      `PlayerActions.setDuration`, which the action file does not declare, so
      it throws before dispatching anything. */
  function OnMediaEvent(ev: MediaEvent, paused: bool, currentTime: Num): (r: seq<Action>)
    ensures |r| <= 1
    ensures ev.LoadedMetadataEvent? ==> r == []
    ensures ev.TimeUpdateEvent? ==> r == [SetCurrentTime(currentTime)]
    ensures !ev.TimeUpdateEvent? ==>
      forall i :: 0 <= i < |r| ==> r[i].SetStatus? && r[i].error.None? && r[i].status != Loading
    ensures ev.PlayingEvent? ==> r == [SetStatus(Playing, None)]
    ensures ev.PauseEvent? ==> r == [SetStatus(Paused, None)]
    ensures ev.EndedEvent? ==> r == [SetStatus(Stopped, None)]
    ensures ev.ErrorEvent? ==> r == [SetStatus(Error, None)]
    ensures ev.WaitingEvent? ==> r == [SetStatus(Buffering, None)]
    ensures ev.CanPlayEvent? ==> r == (if paused then [SetStatus(Paused, None)] else [])
  {
    match ev
    case LoadedMetadataEvent => []
    case TimeUpdateEvent => [SetCurrentTime(currentTime)]
    case PlayingEvent => [SetStatus(Playing, None)]
    case PauseEvent => [SetStatus(Paused, None)]
    case EndedEvent => [SetStatus(Stopped, None)]
    case ErrorEvent => [SetStatus(Error, None)]
    case WaitingEvent => [SetStatus(Buffering, None)]
    case CanPlayEvent => if paused then [SetStatus(Paused, None)] else []
  }

  /** Every status but `loading` is reported by some event; `loading` by
      none, and `playing` only by the `playing` event. */
  lemma EventStatusCoverage(st: PlaybackStatus, t: Num)
    ensures st != Loading <==> exists ev: MediaEvent :: OnMediaEvent(ev, true, t) == [SetStatus(st, None)]
    ensures forall ev: MediaEvent, paused: bool ::
      OnMediaEvent(ev, paused, t) == [SetStatus(Playing, None)] ==> ev.PlayingEvent?
  {
    match st
    case Playing => assert OnMediaEvent(PlayingEvent, true, t) == [SetStatus(st, None)];
    case Paused => assert OnMediaEvent(PauseEvent, true, t) == [SetStatus(st, None)];
    case Buffering => assert OnMediaEvent(WaitingEvent, true, t) == [SetStatus(st, None)];
    case Stopped => assert OnMediaEvent(EndedEvent, true, t) == [SetStatus(st, None)];
    case Error => assert OnMediaEvent(ErrorEvent, true, t) == [SetStatus(st, None)];
    case Loading =>
  }

  /** `seek(position)`: the new `currentTime`, or None when
      `position * audio.duration` is not finite and nothing moves. */
  function Seek(position: Num, duration: Num): (r: Option<real>)
    ensures r.Some? <==> position.Fin? && duration.Fin?
    ensures r.Some? ==> r.value == position.v * duration.v
  {
    var t := Mul(position, duration);
    if IsFinite(t) then Some(t.v) else None
  }

  /** What `setVolume(volume)` does: the level fed to the logarithmic gain
      curve (the gain becomes `log10(level) + 1`) and the actions it
      dispatches. A non-finite level makes `setValueAtTime` throw before the
      dispatch, so nothing reaches the store. */
  datatype VolumeStep = VolumeStep(gainLevel: Num, dispatched: seq<Action>)

  const MinGainLevel: real := 0.0001

  function SetVolumeStep(volume: Num): (r: VolumeStep)
    // the store receives the raw, unclamped volume, unless the gain threw
    ensures r.dispatched == [] || r.dispatched == [SetVolume(volume)]
    ensures r.dispatched == [SetVolume(volume)] <==> IsFinite(r.gainLevel)
    ensures r.dispatched == [] <==> volume.NaN? || volume.PosInf?
    // only the gain is floored, and only from below
    ensures r.gainLevel.NaN? <==> volume.NaN?
    ensures !volume.NaN? ==> Le(Fin(MinGainLevel), r.gainLevel)
    ensures volume.Fin? && volume.v >= MinGainLevel ==> r.gainLevel == volume
    ensures (volume.Fin? && volume.v < MinGainLevel) || volume.NegInf? ==>
      r.gainLevel == Fin(MinGainLevel)
    ensures volume.PosInf? ==> r.gainLevel == PosInf
  {
    var level := Max(Fin(MinGainLevel), volume);
    VolumeStep(level, if IsFinite(level) then [SetVolume(volume)] else [])
  }

  /** Out-of-range volumes reach the gain as the floor but the store as
      given: `setVolume(-5)` and `setVolume(0)` sound alike yet dispatch
      different volumes. */
  lemma NegativeVolumeReachesStore()
    ensures SetVolumeStep(Fin(-5.0)).gainLevel == SetVolumeStep(Fin(0.0)).gainLevel
    ensures SetVolumeStep(Fin(-5.0)).dispatched != SetVolumeStep(Fin(0.0)).dispatched
  {}

  /** What `next(track)` does: the position it sets, then the nested
      `play(track)`. */
  datatype NextStep = NextStep(time: real, play: PlayStep)

  /** `next(track)` with `audio.currentTime == t`. A zero or undefined
      duration makes the remainder NaN; assigning NaN to `currentTime` throws,
      so nothing else happens (None). The position is otherwise `t + 1` wrapped
      into the track by JavaScript's truncating `%`. */
  function Next(p: Player, track: Track, t: real, freshBlob: string, playResolves: bool): (r: Option<NextStep>)
    requires FreshBlob(p, freshBlob)
    ensures r.None? <==> track.duration.None? || track.duration.value == 0.0
    ensures r.Some? ==> exists k: int :: r.value.time == t + 1.0 - Multiple(k, track.duration.value)
    ensures r.Some? && 0.0 < track.duration.value && 0.0 <= t + 1.0 ==>
      0.0 <= r.value.time < track.duration.value
    ensures r.Some? && 0.0 < track.duration.value && t + 1.0 < 0.0 ==>
      -track.duration.value < r.value.time <= 0.0
    ensures r.Some? && 0.0 <= t && t + 1.0 < track.duration.value ==> r.value.time == t + 1.0
    ensures r.Some? && 0.0 < track.duration.value <= t + 1.0 < track.duration.value + track.duration.value ==>
      r.value.time == t + 1.0 - track.duration.value
    // the nested play is the same track: if it is current, nothing reloads
    ensures r.Some? ==> r.value.play == PlayTrack(p, track, freshBlob, playResolves)
  {
    match track.duration
    case None => None
    case Some(d) =>
      if d == 0.0 then None
      else
        RemNearPeriod(t + 1.0, d);
        Some(NextStep(Rem(t + 1.0, d), PlayTrack(p, track, freshBlob, playResolves)))
  }

  /** `previous(track)` with `audio.currentTime == t`: the position it sets,
      `t - 1 + duration` reduced by the truncating `%`. It never calls `play`,
      so it dispatches nothing. */
  function Previous(track: Track, t: real): (r: Option<real>)
    ensures r.None? <==> track.duration.None? || track.duration.value == 0.0
    ensures r.Some? ==> exists k: int ::
      r.value == t - 1.0 + track.duration.value - Multiple(k, track.duration.value)
    ensures r.Some? && 0.0 < track.duration.value && 1.0 <= t < track.duration.value + 1.0 ==>
      r.value == t - 1.0
    ensures r.Some? && 0.0 <= t < 1.0 && 1.0 <= t + track.duration.value < track.duration.value + 1.0 ==>
      r.value == t - 1.0 + track.duration.value
    ensures r.Some? && 1.0 <= track.duration.value && 0.0 <= t ==> 0.0 <= r.value < track.duration.value
    // the truncating `%` keeps the dividend's sign, so the result is pinned
    // for every positive duration, negative dividends included
    ensures r.Some? && 0.0 < track.duration.value && 0.0 <= t - 1.0 + track.duration.value ==>
      0.0 <= r.value < track.duration.value
    ensures r.Some? && 0.0 < track.duration.value && t - 1.0 + track.duration.value < 0.0 ==>
      -track.duration.value < r.value <= 0.0
  {
    match track.duration
    case None => None
    case Some(d) =>
      if d == 0.0 then None
      else
        var x := t - 1.0 + d;
        RemNearPeriod(x, d);
        Some(Rem(x, d))
  }

  /** The truncating remainder makes `previous` produce a negative position
      on a track shorter than one second. */
  lemma PreviousOnShortTrackIsNegative(track: Track)
    requires track.duration == Some(0.5)
    ensures Previous(track, 0.1) == Some(-0.4)
  {
    RemOfNegative(-0.4, 0.5);
  }
}

=== FILE: common.dfy ===
/** Small shared datatypes: optional values, and the settled outcome of a
    promise returned by a service whose code is not part of this model. */
module Common {

  /** `T | null` / `T | undefined` in the application. */
  datatype Option<+T> = None | Some(value: T)

  /** What a rejected promise carries. The storage service rejects with plain
      strings, not `Error` objects, so reading `.message` on the reason only
      yields a string for an `ErrorObject`. */
  datatype Reason = ErrorObject(message: string) | OtherValue(text: string)

  /** The outcome of one service call (an oracle for the browser). The
      track service attaches no error handler to opening the database, so a
      failed open leaves its promise `Pending` forever. */
  datatype Outcome<+T> = Resolved(value: T) | Rejected(reason: Reason) | Pending

  /** `error.message`: `undefined` (None) unless the reason is an `Error`. */
  function MessageOf(reason: Reason): (m: Option<string>)
    ensures m.Some? <==> reason.ErrorObject?
    ensures m.Some? ==> m.value == reason.message
  {
    match reason
    case ErrorObject(msg) => Some(msg)
    case OtherValue(_) => None
  }
}

=== FILE: js_number.dfy ===
/** The parts of JavaScript's IEEE-754 `number` semantics the player relies
    on: NaN and the infinities, `Math.min`/`Math.max`, `*`, `/`, `isFinite`
    and the truncating remainder `%`. Finite values are exact reals here:
    rounding is not modelled. */
module JsNumber {

  datatype Num = Fin(v: real) | NaN | PosInf | NegInf

  predicate IsFinite(x: Num) { x.Fin? }

  /** `a <= b` on the extended reals; both operands are not NaN. */
  predicate Le(a: Num, b: Num)
    requires !a.NaN? && !b.NaN?
  {
    match (a, b)
    case (NegInf, _) => true
    case (_, PosInf) => true
    case (Fin(x), Fin(y)) => x <= y
    case _ => false
  }

  /** `Math.min(a, b)`: NaN if either operand is NaN, else the smaller one. */
  function Min(a: Num, b: Num): (r: Num)
    ensures r.NaN? <==> a.NaN? || b.NaN?
    ensures !r.NaN? ==> Le(r, a) && Le(r, b) && (r == a || r == b)
  {
    if a.NaN? || b.NaN? then NaN
    else if Le(a, b) then a
    else b
  }

  /** `Math.max(a, b)`: NaN if either operand is NaN, else the larger one. */
  function Max(a: Num, b: Num): (r: Num)
    ensures r.NaN? <==> a.NaN? || b.NaN?
    ensures !r.NaN? ==> Le(a, r) && Le(b, r) && (r == a || r == b)
  {
    if a.NaN? || b.NaN? then NaN
    else if Le(a, b) then b
    else a
  }

  /** `Math.max(0, Math.min(1, x))`: the unit-interval clamp used for seek
      positions and volumes. */
  function ClampUnit(x: Num): (r: Num)
    ensures r.NaN? <==> x.NaN?
    ensures !x.NaN? ==> r.Fin? && 0.0 <= r.v <= 1.0
    ensures x.Fin? && 0.0 <= x.v <= 1.0 ==> r == x
    ensures (x.Fin? && x.v < 0.0) || x.NegInf? ==> r == Fin(0.0)
    ensures (x.Fin? && x.v > 1.0) || x.PosInf? ==> r == Fin(1.0)
  {
    Max(Fin(0.0), Min(Fin(1.0), x))
  }

  /** `a * b`. Signed zeros are not distinguished. */
  function Mul(a: Num, b: Num): (r: Num)
    ensures r.Fin? <==> a.Fin? && b.Fin?
    ensures r.Fin? ==> r.v == a.v * b.v
    ensures a.NaN? || b.NaN? ==> r.NaN?
  {
    match (a, b)
    case (Fin(x), Fin(y)) => Fin(x * y)
    case (NaN, _) => NaN
    case (_, NaN) => NaN
    case (Fin(x), _) => InfTimes(b, x)
    case (_, Fin(y)) => InfTimes(a, y)
    case _ => if a == b then PosInf else NegInf
  }

  /** An infinity times a finite factor. */
  function InfTimes(inf: Num, factor: real): Num
    requires inf.PosInf? || inf.NegInf?
  {
    if factor == 0.0 then NaN
    else if (factor > 0.0) == inf.PosInf? then PosInf
    else NegInf
  }

  /** `x / y` for finite operands; a zero divisor gives an infinity, or NaN
      for `0 / 0`. */
  function Div(x: real, y: real): (r: Num)
    ensures r.Fin? <==> y != 0.0
    ensures r.Fin? ==> r.v * y == x
    ensures r.NaN? <==> x == 0.0 && y == 0.0
  {
    if y != 0.0 then Fin(x / y)
    else if x > 0.0 then PosInf
    else if x < 0.0 then NegInf
    else NaN
  }

  /** Truncation toward zero, the quotient rounding behind `%`. */
  function Trunc(q: real): (k: int)
    ensures q >= 0.0 ==> k as real <= q < k as real + 1.0
    ensures q < 0.0 ==> k as real - 1.0 < q <= k as real
  {
    if q >= 0.0 then q.Floor else -((-q).Floor)
  }

  lemma MulMonotone(a: real, b: real, c: real)
    requires a <= b && c > 0.0
    ensures a * c <= b * c
  {}

  lemma MulStrictMonotone(a: real, b: real, c: real)
    requires a < b && c > 0.0
    ensures a * c < b * c
  {}

  /** `k` whole periods of length `d`. */
  function Multiple(k: int, d: real): real {
    k as real * d
  }

  /** JavaScript `x % d` for finite operands and a non-zero divisor: the
      dividend less a whole number of divisors, with the sign of the
      dividend and smaller than `d` in magnitude. Dafny's own `%` is
      Euclidean, so it is not used. */
  function Rem(x: real, d: real): (r: real)
    requires d != 0.0
    ensures exists k: int :: r == x - Multiple(k, d)
    ensures 0.0 <= x && 0.0 < d ==> 0.0 <= r < d
    ensures x < 0.0 && 0.0 < d ==> -d < r <= 0.0
  {
    var k := Trunc(x / d);
    RemBounds(x, d, k);
    x - Multiple(k, d)
  }

  /** Two whole multiples of a positive `d` closer than `d` are equal. */
  lemma {:induction false} MultiplesApart(d: real, j: int, k: int)
    requires 0.0 < d && -d < Multiple(j, d) - Multiple(k, d) < d
    ensures j == k
  {
    var diff := (j - k) as real;
    assert Multiple(j, d) - Multiple(k, d) == diff * d;
    if j > k {
      MulMonotone(1.0, diff, d);
    } else if j < k {
      MulMonotone(diff, -1.0, d);
    }
  }

  /** The bounds and the whole-multiple property determine `Rem`: any
      value of the form `x - k * d` in the result range is the remainder. */
  lemma {:induction false} RemIsUnique(x: real, d: real, k: int)
    requires 0.0 < d
    requires (0.0 <= x && 0.0 <= x - Multiple(k, d) < d) || (x < 0.0 && -d < x - Multiple(k, d) <= 0.0)
    ensures Rem(x, d) == x - Multiple(k, d)
  {
    var r := Rem(x, d);
    var k0 :| r == x - Multiple(k0, d);
    MultiplesApart(d, k, k0);
  }

  /** The truncated quotient leaves a sign-matching remainder within one
      period of a positive divisor. */
  lemma RemBounds(x: real, d: real, k: int)
    requires d != 0.0 && k == Trunc(x / d)
    ensures 0.0 < d && 0.0 <= x ==> 0.0 <= x - Multiple(k, d) < d
    ensures 0.0 < d && x < 0.0 ==> -d < x - Multiple(k, d) <= 0.0
  {
    if 0.0 < d {
      var q := x / d;
      assert q * d == x;
      if 0.0 <= x {
        Scale(x, d, q, k as real, k as real + 1.0);
      } else {
        Scale(x, d, q, k as real - 1.0, k as real);
      }
    }
  }

  /** Scaling `lo <= q <= hi` (strict where given) by a positive `d`. */
  lemma Scale(x: real, d: real, q: real, lo: real, hi: real)
    requires 0.0 < d && q * d == x && lo <= q <= hi
    ensures lo * d <= x <= hi * d
    ensures lo < q ==> lo * d < x
    ensures q < hi ==> x < hi * d
    ensures hi == lo + 1.0 ==> hi * d == lo * d + d
  {
    MulMonotone(lo, q, d);
    MulMonotone(q, hi, d);
    if lo < q { MulStrictMonotone(lo, q, d); }
    if q < hi { MulStrictMonotone(q, hi, d); }
  }

  /** A dividend already in `[0, d)` is its own remainder. */
  lemma {:induction false} RemOfSmall(x: real, d: real)
    requires 0.0 < d && 0.0 <= x < d
    ensures Rem(x, d) == x
  {
    var q := x / d;
    assert q * d == x;
    MulStrictMonotone(q, 1.0, d);
    assert Trunc(q) == 0;
  }

  /** A dividend in `[d, 2d)` wraps once. */
  lemma {:induction false} RemOfWrap(x: real, d: real)
    requires 0.0 < d && d <= x < d + d
    ensures Rem(x, d) == x - d
  {
    var q := x / d;
    assert q * d == x;
    MulMonotone(1.0, q, d);
    MulStrictMonotone(q, 2.0, d);
    assert Trunc(q) == 1;
  }

  /** A dividend in `(-d, 0)` is its own, negative, remainder. */
  lemma {:induction false} RemOfNegative(x: real, d: real)
    requires 0.0 < d && -d < x < 0.0
    ensures Rem(x, d) == x
  {
    var q := x / d;
    assert q * d == x;
    MulStrictMonotone(-1.0, q, d);
    assert Trunc(q) == 0;
  }

  /** The remainder of a dividend within one period on either side of
      `[0, d)`. */
  lemma RemNearPeriod(x: real, d: real)
    requires d != 0.0
    ensures 0.0 < d && 0.0 <= x < d ==> Rem(x, d) == x
    ensures 0.0 < d && d <= x < d + d ==> Rem(x, d) == x - d
    ensures 0.0 < d && -d < x < 0.0 ==> Rem(x, d) == x
  {
    if 0.0 < d {
      if 0.0 <= x < d { RemOfSmall(x, d); }
      if d <= x < d + d { RemOfWrap(x, d); }
      if -d < x < 0.0 { RemOfNegative(x, d); }
    }
  }
}

=== FILE: models.dfy ===
/** The application's entities: a track and its category, and the playback
    statuses the player reports. Enumerations keep the string values the
    application stores and compares. */
module Models {
  import opened Common

  datatype MusicCategory = Pop | Rock | Rap | Chaabi | Other {
    function Value(): string {
      match this
      case Pop => "pop"
      case Rock => "rock"
      case Rap => "rap"
      case Chaabi => "cha3bi"
      case Other => "other"
    }
  }

  datatype PlaybackStatus = Playing | Paused | Buffering | Stopped | Loading | Error {
    function Value(): string {
      match this
      case Playing => "playing"
      case Paused => "paused"
      case Buffering => "buffering"
      case Stopped => "stopped"
      case Loading => "loading"
      case Error => "error"
    }
  }

  /** The status whose string value is `s`, if any: the inverse of `Value`. */
  function StatusOfValue(s: string): (r: Option<PlaybackStatus>)
    ensures r.Some? ==> r.value.Value() == s
    ensures forall st: PlaybackStatus :: st.Value() == s ==> r == Some(st)
  {
    if s == "playing" then Some(Playing)
    else if s == "paused" then Some(Paused)
    else if s == "buffering" then Some(Buffering)
    else if s == "stopped" then Some(Stopped)
    else if s == "loading" then Some(Loading)
    else if s == "error" then Some(Error)
    else None
  }

  /** A browser `File` object; only its identity matters here. */
  datatype AudioFile = AudioFile(handle: nat)

  /** A track. `audioFile` is not declared on the interface but is attached
      at runtime by the upload form, and the player tests for it. The
      duration is in seconds, and `undefined` (None) when the form submits
      before the file's metadata is probed. `addedDate` is in milliseconds
      since the epoch. */
  datatype Track = Track(
    id: string,
    title: string,
    artist: string,
    description: Option<string>,
    duration: Option<real>,
    category: MusicCategory,
    addedDate: int,
    fileUrl: string,
    audioFile: Option<AudioFile>)
}

=== FILE: track_actions.dfy ===
/** The tagged union of every action the store can see: the track actions
    and the player actions of the application's action file. */
module TrackActions {
  import opened Common
  import opened JsNumber
  import opened Models

  datatype Action =
    // Track actions
    | LoadTracks
    | LoadTracksSuccess(tracks: seq<Track>)
    | LoadTracksFailure(error: Option<string>)
    | AddTrack(track: Track)
    | AddTrackSuccess(track: Track)
    | AddTrackFailure(error: Option<string>)
    | UpdateTrack(track: Track)
    | DeleteTrack(id: string)
    // Player actions
    | Play(track: Track)
    | Pause
    | Stop
    | SetVolume(volume: Num)
    | SetCurrentTime(time: Num)
    | SetStatus(status: PlaybackStatus, error: Option<string>)
}

=== FILE: track_detail.dfy ===
/** The decision rules of the track-detail page: whether the next/previous
    buttons are enabled, the clamps applied to seek and volume input, the
    status banner text, and the source fallback of `onPlay`. */
module TrackDetail {
  import opened Common
  import opened JsNumber
  import opened Models
  import opened TrackActions
  import opened TrackSelectors
  import AudioService

  /** Some track of `playlist` has id `id`. */
  ghost predicate Contains(playlist: seq<Track>, id: string) {
    exists j :: 0 <= j < |playlist| && playlist[j].id == id
  }

  /** `canGoNext$`: a current track that is not the last entry of the
      playlist. A current track missing from the playlist has index -1 and
      so counts as having a successor whenever the playlist is non-empty. */
  function CanGoNext(playlist: Option<seq<Track>>, current: Option<Track>): (r: bool)
    ensures playlist.None? || current.None? ==> !r
    ensures playlist.Some? && current.Some? ==>
      var pl, id := playlist.value, current.value.id;
      (r <==> |pl| > 0 && (pl[|pl| - 1].id != id || exists j :: 0 <= j < |pl| - 1 && pl[j].id == id))
    ensures playlist.Some? && current.Some? && !Contains(playlist.value, current.value.id) ==>
      (r <==> |playlist.value| > 0)
  {
    if playlist.None? || current.None? then false
    else
      var pl := playlist.value;
      FindIndex(pl, current.value.id) < |pl| - 1
  }

  /** `canGoPrevious$`: a current track that is not the first entry, or a
      playback position past three seconds (restart the track). A current
      track missing from the playlist depends on the position alone. */
  function CanGoPrevious(playlist: Option<seq<Track>>, current: Option<Track>, currentTime: real): (r: bool)
    ensures playlist.None? || current.None? ==> !r
    ensures playlist.Some? && current.Some? ==>
      var pl, id := playlist.value, current.value.id;
      (r <==> (Contains(pl, id) && pl[0].id != id) || currentTime > 3.0)
    ensures playlist.Some? && current.Some? && !Contains(playlist.value, current.value.id) ==>
      (r <==> currentTime > 3.0)
  {
    if playlist.None? || current.None? then false
    else FindIndex(playlist.value, current.value.id) > 0 || currentTime > 3.0
  }

  /** `(event.clientX - rect.left) / rect.width`. */
  function SeekFraction(clientX: real, left: real, width: real): Num {
    Div(clientX - left, width)
  }

  /** `onSeek`: the clamped position handed to the audio service, and the
      time that results. A click inside the bar seeks to the clicked fraction
      of its width; clicks outside it pin to 0 or 1. The position is NaN only
      for a click on a zero-width bar at its left edge, and a NaN position
      moves nothing. */
  function OnSeek(clientX: real, left: real, width: real, duration: Num): (r: (Num, Option<real>))
    ensures r.0.NaN? <==> clientX == left && width == 0.0
    ensures !r.0.NaN? ==> r.0.Fin? && 0.0 <= r.0.v <= 1.0
    ensures 0.0 < width && left <= clientX <= left + width ==> r.0.Fin? && r.0.v * width == clientX - left
    ensures 0.0 < width && clientX < left ==> r.0 == Fin(0.0)
    ensures 0.0 < width && left + width < clientX ==> r.0 == Fin(1.0)
    // the time is the audio service's seek of that position
    ensures r.1 == AudioService.Seek(r.0, duration)
    ensures r.1.Some? <==> !r.0.NaN? && duration.Fin?
    ensures r.1.Some? && 0.0 <= duration.v ==> 0.0 <= r.1.value <= duration.v
  {
    var fraction := SeekFraction(clientX, left, width);
    if 0.0 < width then ClickedPosition(clientX, left, width); Located(fraction, duration)
    else Located(fraction, duration)
  }

  /** On a bar of positive width, the clamped fraction is the clicked
      fraction inside the bar and an end of [0, 1] outside it. */
  lemma ClickedPosition(clientX: real, left: real, width: real)
    requires 0.0 < width
    ensures left <= clientX <= left + width ==>
      var p := ClampUnit(SeekFraction(clientX, left, width)); p.Fin? && p.v * width == clientX - left
    ensures clientX < left ==> ClampUnit(SeekFraction(clientX, left, width)) == Fin(0.0)
    ensures left + width < clientX ==> ClampUnit(SeekFraction(clientX, left, width)) == Fin(1.0)
  {
    var fraction := SeekFraction(clientX, left, width);
    var q := fraction.v;
    assert q * width == clientX - left;
    FractionBounds(q, width);
  }

  /** The position and time that a raw fraction of the bar leads to. */
  function Located(fraction: Num, duration: Num): (r: (Num, Option<real>))
    ensures r.0 == ClampUnit(fraction)
    ensures r.1 == AudioService.Seek(r.0, duration)
    ensures r.1.Some? && 0.0 <= duration.v ==> 0.0 <= r.1.value <= duration.v
  {
    var position := ClampUnit(fraction);
    var time := AudioService.Seek(position, duration);
    if time.Some? && 0.0 <= duration.v then
      var p, d := position.v, duration.v;
      UnitScale(p, d);
      assert time.value == p * d;
      (position, time)
    else (position, time)
  }

  lemma UnitScale(p: real, d: real)
    requires 0.0 <= p <= 1.0 && 0.0 <= d
    ensures 0.0 <= p * d <= d
  {
    if d > 0.0 {
      MulMonotone(0.0, p, d);
      MulMonotone(p, 1.0, d);
    }
  }

  /** Where a fraction `q` of a positive width `w` lands relative to [0, w]. */
  lemma FractionBounds(q: real, w: real)
    requires 0.0 < w
    ensures q * w < 0.0 ==> q < 0.0
    ensures 0.0 <= q * w <= w ==> 0.0 <= q <= 1.0
    ensures w < q * w ==> 1.0 < q
  {
    if q < 0.0 {
      MulStrictMonotone(q, 0.0, w);
    } else if q <= 1.0 {
      MulMonotone(0.0, q, w);
      MulMonotone(q, 1.0, w);
    } else {
      MulStrictMonotone(1.0, q, w);
    }
  }

  /** `onVolumeChange`: nothing for a null volume, otherwise the audio
      service's `setVolume` applied to the clamped volume. A NaN volume
      survives the clamp and makes the gain update throw, so it dispatches
      nothing. */
  function OnVolumeChange(volume: Option<Num>): (r: Option<AudioService.VolumeStep>)
    ensures r.None? <==> volume.None?
    ensures r.Some? ==> (r.value.dispatched == [] <==> volume.value.NaN?)
    ensures r.Some? && !volume.value.NaN? ==> r.value.dispatched == [SetVolume(ClampUnit(volume.value))]
    ensures r.Some? && !volume.value.NaN? ==>
      var v := ClampUnit(volume.value); v.Fin? && 0.0 <= v.v <= 1.0
    ensures r.Some? && !volume.value.NaN? ==>
      r.value.gainLevel.Fin? && AudioService.MinGainLevel <= r.value.gainLevel.v <= 1.0
    ensures r.Some? && volume.value.Fin? && 0.0 <= volume.value.v <= 1.0 ==>
      r.value.dispatched == [SetVolume(volume.value)]
  {
    if volume.None? then None
    else Some(AudioService.SetVolumeStep(ClampUnit(volume.value)))
  }

  const BufferingMessage: string := "Chargement en cours..."
  const ErrorMessage: string := "Erreur lors de la lecture"
  const LoadingMessage: string := "Chargement du fichier..."

  /** `getStatusMessage`: a banner text for the buffering, error and
      loading statuses, and the empty string for anything else. */
  function GetStatusMessage(status: string): (r: string)
    ensures r != "" <==> exists st: PlaybackStatus ::
      st.Value() == status && (st.Buffering? || st.Error? || st.Loading?)
    ensures status == Buffering.Value() ==> r == BufferingMessage
    ensures status == Error.Value() ==> r == ErrorMessage
    ensures status == Loading.Value() ==> r == LoadingMessage
  {
    match StatusOfValue(status)
    case Some(Buffering) => BufferingMessage
    case Some(Error) => ErrorMessage
    case Some(Loading) => LoadingMessage
    case _ => ""
  }

  /** What `onPlay` ends up doing. */
  datatype PlayRequest =
    | Ignored                 // no track was given
    | Waiting                 // the stored-track lookup never settles
    | CallPlay(track: Track)  // `audioService.play` with this track
    | Report(action: Action)  // the source is missing; this is dispatched

  const MissingUrlMessage: string := "URL du fichier audio invalide ou manquante"

  /** `onPlay(track)`. `stored` is the outcome of `getTrackById(track.id)`;
      it is consulted only when the track's own `fileUrl` is empty. That
      lookup has no error handler, so it either resolves or never settles;
      a rejection would be caught like a missing source. */
  function OnPlay(track: Option<Track>, stored: Outcome<Option<Track>>): (r: PlayRequest)
    ensures r.Ignored? <==> track.None?
    // a pending lookup neither plays nor reports
    ensures r.Waiting? <==> track.Some? && track.value.fileUrl == "" && stored.Pending?
    // the played track differs from the given one in `fileUrl` only, and
    // that `fileUrl` is never empty
    ensures r.CallPlay? ==> r.track == track.value.(fileUrl := r.track.fileUrl) && r.track.fileUrl != ""
    ensures r.CallPlay? && track.value.fileUrl != "" ==> r.track == track.value
    ensures r.CallPlay? && track.value.fileUrl == "" ==>
      stored.Resolved? && stored.value.Some? && r.track.fileUrl == stored.value.value.fileUrl
    // both locators empty: an error status, and `play` is never called
    ensures r.Report? <==>
      && track.Some? && track.value.fileUrl == ""
      && (stored.Rejected? || (stored.Resolved? && (stored.value.None? || stored.value.value.fileUrl == "")))
    ensures r.Report? ==> r.action == SetStatus(Error, Some(MissingUrlMessage))
  {
    if track.None? then Ignored
    else if track.value.fileUrl != "" then CallPlay(track.value)
    else
      match stored
      case Pending => Waiting
      case Rejected(_) => Report(SetStatus(Error, Some(MissingUrlMessage)))
      case Resolved(found) =>
        var url := if found.Some? then found.value.fileUrl else "";
        if url == "" then Report(SetStatus(Error, Some(MissingUrlMessage)))
        else CallPlay(track.value.(fileUrl := url))
  }

  /** A track handed on by `onPlay` always has a source, so the audio
      service's resolution cannot fail on it. */
  lemma OnPlayNeverFailsResolution(track: Option<Track>, stored: Outcome<Option<Track>>, blob: string)
    requires OnPlay(track, stored).CallPlay?
    ensures AudioService.ResolveSource(OnPlay(track, stored).track, blob).Some?
  {}
}

=== FILE: track_effects.dfy ===
/** The two effects that bridge the storage service to the store. Each one
    listens for one trigger action and, once the service call settles,
    dispatches exactly one follow-up: a success carrying the resolved value
    or a failure carrying `error.message`. A call that never settles
    dispatches nothing. The service call is an oracle. */
module TrackEffects {
  import opened Common
  import opened Models
  import opened TrackActions
  import opened TrackReducer

  /** How the storage service settles: the result of `getAllTracks()`, and
      the result of `addTrack(t)` for each track `t`. */
  datatype Services = Services(getAllTracks: Outcome<seq<Track>>, addTrack: Track -> Outcome<Track>)

  /** `loadTracks$`. */
  function LoadTracksEffect(trigger: Action, getAll: Outcome<seq<Track>>): (r: seq<Action>)
    ensures |r| <= 1
    ensures |r| == 1 <==> trigger.LoadTracks? && !getAll.Pending?
    ensures |r| == 1 ==> (r[0].LoadTracksSuccess? <==> getAll.Resolved?)
    ensures |r| == 1 ==> (r[0].LoadTracksFailure? <==> getAll.Rejected?)
    ensures |r| == 1 && getAll.Resolved? ==> r[0].tracks == getAll.value
    ensures |r| == 1 && getAll.Rejected? ==> r[0].error == MessageOf(getAll.reason)
  {
    if !trigger.LoadTracks? then []
    else
      match getAll
      case Resolved(tracks) => [LoadTracksSuccess(tracks)]
      case Rejected(reason) => [LoadTracksFailure(MessageOf(reason))]
      case Pending => []
  }

  /** `addTrack$`: the service is called with the trigger's track. */
  function AddTrackEffect(trigger: Action, addTrack: Track -> Outcome<Track>): (r: seq<Action>)
    ensures |r| <= 1
    ensures |r| == 1 <==> trigger.AddTrack? && !addTrack(trigger.track).Pending?
    ensures |r| == 1 ==> (r[0].AddTrackSuccess? <==> addTrack(trigger.track).Resolved?)
    ensures |r| == 1 ==> (r[0].AddTrackFailure? <==> addTrack(trigger.track).Rejected?)
    ensures |r| == 1 && addTrack(trigger.track).Resolved? ==> r[0].track == addTrack(trigger.track).value
    ensures |r| == 1 && addTrack(trigger.track).Rejected? ==>
      r[0].error == MessageOf(addTrack(trigger.track).reason)
  {
    if !trigger.AddTrack? then []
    else
      match addTrack(trigger.track)
      case Resolved(t) => [AddTrackSuccess(t)]
      case Rejected(reason) => [AddTrackFailure(MessageOf(reason))]
      case Pending => []
  }

  /** Every follow-up the registered effects dispatch for one action. */
  function Effects(trigger: Action, services: Services): (r: seq<Action>)
    ensures |r| <= 1
    ensures |r| == 1 <==>
      || (trigger.LoadTracks? && !services.getAllTracks.Pending?)
      || (trigger.AddTrack? && !services.addTrack(trigger.track).Pending?)
    // a follow-up never triggers another effect
    ensures forall i :: 0 <= i < |r| ==> !r[i].LoadTracks? && !r[i].AddTrack?
  {
    LoadTracksEffect(trigger, services.getAllTracks) + AddTrackEffect(trigger, services.addTrack)
  }

  /** One dispatch seen end to end: the reducer runs on the action, then on
      its follow-up, with no other action interleaved. */
  function Dispatch(s: TrackState, a: Action, services: Services): TrackState {
    Run(Reduce(s, a), Effects(a, services))
  }

  /** One user action together with how the service calls it triggers
      settle at that moment. */
  datatype Step = Step(action: Action, services: Services)

  /** Dispatching each step's action in turn; successive calls may settle
      differently (a pending load, then a resolved one). */
  function DispatchAll(s: TrackState, steps: seq<Step>): TrackState
    decreases |steps|
  {
    if |steps| == 0 then s else DispatchAll(Dispatch(s, steps[0].action, steps[0].services), steps[1..])
  }

  /** A failed load leaves the list as it was and `loading` stuck at true. */
  lemma FailedLoadKeepsLoading(s: TrackState, services: Services)
    requires services.getAllTracks.Rejected?
    ensures Dispatch(s, LoadTracks, services).loading
    ensures Dispatch(s, LoadTracks, services).tracks == s.tracks
    ensures Dispatch(s, LoadTracks, services).error == s.error
  {
    assert Effects(LoadTracks, services) == [LoadTracksFailure(MessageOf(services.getAllTracks.reason))];
    RunSingle(Reduce(s, LoadTracks), LoadTracksFailure(MessageOf(services.getAllTracks.reason)));
  }

  /** A load whose database never opens leaves `loading` true for good. */
  lemma PendingLoadKeepsLoading(s: TrackState, services: Services)
    requires services.getAllTracks.Pending?
    ensures Dispatch(s, LoadTracks, services) == s.(loading := true)
  {
    assert Effects(LoadTracks, services) == [];
  }

  /** A successful load installs exactly the service's tracks and clears
      `loading`. */
  lemma SuccessfulLoadReplaces(s: TrackState, services: Services)
    requires services.getAllTracks.Resolved?
    ensures Dispatch(s, LoadTracks, services).tracks == services.getAllTracks.value
    ensures !Dispatch(s, LoadTracks, services).loading
  {
    assert Effects(LoadTracks, services) == [LoadTracksSuccess(services.getAllTracks.value)];
    RunSingle(Reduce(s, LoadTracks), LoadTracksSuccess(services.getAllTracks.value));
  }

  /** Adding `t` when the service resolves with `t` appends `t` at the end;
      a rejected or never-settled add changes nothing. */
  lemma AddTrackAppends(s: TrackState, t: Track, services: Services)
    ensures services.addTrack(t) == Resolved(t) ==>
      Dispatch(s, AddTrack(t), services) == s.(tracks := s.tracks + [t])
    ensures !services.addTrack(t).Resolved? ==> Dispatch(s, AddTrack(t), services) == s
  {
    var fx := Effects(AddTrack(t), services);
    if services.addTrack(t) == Resolved(t) {
      assert fx == [AddTrackSuccess(t)];
      RunSingle(s, AddTrackSuccess(t));
    } else if services.addTrack(t).Rejected? {
      assert fx == [AddTrackFailure(MessageOf(services.addTrack(t).reason))];
      RunSingle(s, fx[0]);
    }
  }

  /** Through any sequence of dispatches with their follow-ups, `error` is
      never set: it stays null from the initial state on. */
  lemma {:induction false} DispatchNeverSetsError(s: TrackState, steps: seq<Step>)
    ensures DispatchAll(s, steps).error == s.error
    decreases |steps|
  {
    if |steps| > 0 {
      var a, services := steps[0].action, steps[0].services;
      RunKeepsError(Reduce(s, a), Effects(a, services));
      DispatchNeverSetsError(Dispatch(s, a, services), steps[1..]);
    }
  }
}

=== FILE: track_reducer.dfy ===
/** The `tracks` slice of the store and its reducer. Only three actions are
    handled; every other action, including the failure, update and delete
    actions, leaves the slice as it was. */
module TrackReducer {
  import opened Common
  import opened Models
  import opened TrackActions

  /** `error` is `null` (None) initially; no handler ever writes it. */
  datatype TrackState = TrackState(tracks: seq<Track>, loading: bool, error: Option<string>)

  const InitialState: TrackState := TrackState([], false, None)

  /** The actions the reducer has an `on(...)` case for. */
  predicate Handles(a: Action) {
    a.LoadTracks? || a.LoadTracksSuccess? || a.AddTrackSuccess?
  }

  function Reduce(s: TrackState, a: Action): (r: TrackState)
    // every unhandled action is a no-op
    ensures !Handles(a) ==> r == s
    // no handler writes `error`
    ensures r.error == s.error
    ensures a.LoadTracks? ==> r.loading && r.tracks == s.tracks
    ensures a.LoadTracksSuccess? ==> r.tracks == a.tracks && !r.loading
    // appending keeps the old list as a prefix and does not deduplicate
    ensures a.AddTrackSuccess? ==>
      && r.loading == s.loading
      && |r.tracks| == |s.tracks| + 1
      && r.tracks[..|s.tracks|] == s.tracks
      && r.tracks[|s.tracks|] == a.track
  {
    match a
    case LoadTracks => s.(loading := true)
    case LoadTracksSuccess(ts) => s.(tracks := ts, loading := false)
    case AddTrackSuccess(t) => s.(tracks := s.tracks + [t])
    case _ => s
  }

  /** The slice after the actions `acts` are dispatched in order. */
  function Run(s: TrackState, acts: seq<Action>): TrackState
    decreases |acts|
  {
    if |acts| == 0 then s else Run(Reduce(s, acts[0]), acts[1..])
  }

  lemma RunSingle(s: TrackState, a: Action)
    ensures Run(s, [a]) == Reduce(s, a)
  {
    assert [a][1..] == [];
  }

  /** No action of `acts` replaces the whole list. */
  ghost predicate NoLoadSuccess(acts: seq<Action>) {
    forall i :: 0 <= i < |acts| ==> !acts[i].LoadTracksSuccess?
  }

  /** The tracks carried by the `addTrackSuccess` actions of `acts`, in order. */
  function Added(acts: seq<Action>): seq<Track>
    decreases |acts|
  {
    if |acts| == 0 then []
    else (if acts[0].AddTrackSuccess? then [acts[0].track] else []) + Added(acts[1..])
  }

  lemma {:induction false} RunAppend(s: TrackState, xs: seq<Action>, ys: seq<Action>)
    ensures Run(s, xs + ys) == Run(Run(s, xs), ys)
    decreases |xs|
  {
    if |xs| == 0 {
      assert xs + ys == ys;
    } else {
      assert (xs + ys)[0] == xs[0];
      assert (xs + ys)[1..] == xs[1..] + ys;
      RunAppend(Reduce(s, xs[0]), xs[1..], ys);
    }
  }

  /** No sequence of actions changes `error`. */
  lemma {:induction false} RunKeepsError(s: TrackState, acts: seq<Action>)
    ensures Run(s, acts).error == s.error
    decreases |acts|
  {
    if |acts| > 0 {
      RunKeepsError(Reduce(s, acts[0]), acts[1..]);
    }
  }

  /** Every state reachable from the initial state has `error == null`. */
  lemma ReachableErrorIsNull(acts: seq<Action>)
    ensures Run(InitialState, acts).error.None?
  {
    RunKeepsError(InitialState, acts);
  }

  /** Some action of `acts` is a `loadTracks`. */
  ghost predicate HasLoad(acts: seq<Action>) {
    exists i :: 0 <= i < |acts| && acts[i].LoadTracks?
  }

  lemma HasLoadUnfold(acts: seq<Action>)
    requires |acts| > 0
    ensures HasLoad(acts) <==> acts[0].LoadTracks? || HasLoad(acts[1..])
    ensures NoLoadSuccess(acts) ==> NoLoadSuccess(acts[1..]) && !acts[0].LoadTracksSuccess?
  {
    var rest := acts[1..];
    if HasLoad(acts) {
      var i :| 0 <= i < |acts| && acts[i].LoadTracks?;
      if i > 0 { assert rest[i - 1] == acts[i]; }
    }
    if HasLoad(rest) {
      var i :| 0 <= i < |rest| && rest[i].LoadTracks?;
      assert acts[i + 1] == rest[i];
    }
    if NoLoadSuccess(acts) {
      forall i | 0 <= i < |rest| ensures !rest[i].LoadTracksSuccess? {
        assert rest[i] == acts[i + 1];
      }
    }
  }

  /** Without a `loadTracksSuccess`, the list only grows, by exactly the
      added tracks in dispatch order, and `loading` is set once any
      `loadTracks` is seen and never cleared. In particular a delete, an
      update or a failure never removes anything from the slice. */
  lemma {:induction false} RunWithoutLoadSuccess(s: TrackState, acts: seq<Action>)
    requires NoLoadSuccess(acts)
    ensures Run(s, acts).tracks == s.tracks + Added(acts)
    ensures Run(s, acts).loading <==> s.loading || HasLoad(acts)
    decreases |acts|
  {
    if |acts| == 0 {
      assert s.tracks + [] == s.tracks;
    } else {
      HasLoadUnfold(acts);
      var s' := Reduce(s, acts[0]);
      RunWithoutLoadSuccess(s', acts[1..]);
      var head := if acts[0].AddTrackSuccess? then [acts[0].track] else [];
      assert s'.tracks == s.tracks + head;
      assert Added(acts) == head + Added(acts[1..]);
      assert s'.tracks + Added(acts[1..]) == s.tracks + Added(acts);
    }
  }

  /** After `loadTracks` and any actions that do not complete the load,
      `loading` is still true: a failed load never clears it. */
  lemma LoadingSurvivesUntilSuccess(s: TrackState, acts: seq<Action>)
    requires NoLoadSuccess(acts)
    ensures Run(s, [LoadTracks] + acts).loading
    ensures Run(s, [LoadTracks] + acts).tracks == s.tracks + Added(acts)
  {
    assert ([LoadTracks] + acts)[1..] == acts;
    RunWithoutLoadSuccess(Reduce(s, LoadTracks), acts);
  }

  /** The list is always the payload of the last `loadTracksSuccess`
      followed by every track added after it; `loading` is true exactly when
      a `loadTracks` came after that success. */
  lemma LastLoadDeterminesTracks(s: TrackState, acts: seq<Action>, k: nat)
    requires k < |acts| && acts[k].LoadTracksSuccess?
    requires NoLoadSuccess(acts[k + 1..])
    ensures Run(s, acts).tracks == acts[k].tracks + Added(acts[k + 1..])
    ensures Run(s, acts).loading <==> HasLoad(acts[k + 1..])
  {
    var pre, post := acts[..k + 1], acts[k + 1..];
    assert acts == pre + post;
    RunAppend(s, pre, post);
    assert pre == acts[..k] + [acts[k]];
    RunAppend(s, acts[..k], [acts[k]]);
    RunSingle(Run(s, acts[..k]), acts[k]);
    RunWithoutLoadSuccess(Run(s, pre), post);
  }
}

=== FILE: track_selectors.dfy ===
/** Read-only derivations from the root state: the whole list, and the first
    track with a given id (`Array.prototype.find`). */
module TrackSelectors {
  import opened Common
  import opened Models
  import opened TrackActions
  import opened TrackReducer

  /** The root state; only the `tracks` slice is registered. */
  datatype AppState = AppState(tracks: TrackState)

  /** The `tracks` slice of the root state. */
  function SelectTrackState(st: AppState): (r: TrackState)
    ensures r == st.tracks
  {
    st.tracks
  }

  /** The slice's list, in store order and unchanged. */
  function SelectAllTracks(st: AppState): (r: seq<Track>)
    ensures r == st.tracks.tracks
  {
    SelectTrackState(st).tracks
  }

  /** `findIndex` by id: the lowest index holding `id`, or -1. */
  function FindIndex(tracks: seq<Track>, id: string): (i: int)
    ensures -1 <= i < |tracks|
    ensures i == -1 <==> forall j :: 0 <= j < |tracks| ==> tracks[j].id != id
    ensures 0 <= i ==> tracks[i].id == id
    ensures 0 <= i ==> forall j :: 0 <= j < i ==> tracks[j].id != id
    decreases |tracks|
  {
    if |tracks| == 0 then -1
    else if tracks[0].id == id then 0
    else
      var k := FindIndex(tracks[1..], id);
      if k == -1 then -1 else k + 1
  }

  /** `selectTrackById(id)`: the first track of the slice whose id is `id`. */
  function SelectTrackById(id: string, st: AppState): (r: Option<Track>)
    ensures r.None? <==> forall t :: t in SelectAllTracks(st) ==> t.id != id
    ensures r.Some? ==> r.value.id == id && r.value in SelectAllTracks(st)
    // with duplicate ids the lowest index wins
    ensures r.Some? ==>
      exists i :: 0 <= i < |SelectAllTracks(st)|
        && SelectAllTracks(st)[i] == r.value
        && forall j :: 0 <= j < i ==> SelectAllTracks(st)[j].id != id
  {
    var tracks := SelectAllTracks(st);
    var i := FindIndex(tracks, id);
    if i < 0 then None else Some(tracks[i])
  }

  /** Appending never changes a match that was already found. */
  lemma {:induction false} FindIndexAppend(tracks: seq<Track>, t: Track, id: string)
    requires FindIndex(tracks, id) >= 0
    ensures FindIndex(tracks + [t], id) == FindIndex(tracks, id)
    decreases |tracks|
  {
    assert (tracks + [t])[0] == tracks[0];
    if tracks[0].id != id {
      assert (tracks + [t])[1..] == tracks[1..] + [t];
      FindIndexAppend(tracks[1..], t, id);
    }
  }

  /** Adding a track whose id is already present does not change what the
      lookup by that id returns: the earlier track shadows the new one. */
  lemma DuplicateAddIsShadowed(s: TrackState, t: Track)
    requires exists u :: u in s.tracks && u.id == t.id
    ensures SelectTrackById(t.id, AppState(Reduce(s, AddTrackSuccess(t))))
         == SelectTrackById(t.id, AppState(s))
  {
    var s' := Reduce(s, AddTrackSuccess(t));
    assert s'.tracks == s.tracks + [t];
    FindIndexAppend(s.tracks, t, t.id);
  }

  /** A lookup after a full reload finds exactly what the loaded list holds. */
  lemma LookupAfterLoad(s: TrackState, ts: seq<Track>, id: string)
    ensures SelectTrackById(id, AppState(Reduce(s, LoadTracksSuccess(ts)))).Some?
        <==> exists j :: 0 <= j < |ts| && ts[j].id == id
  {
    var r := SelectTrackById(id, AppState(Reduce(s, LoadTracksSuccess(ts))));
    if r.None? {
      forall j | 0 <= j < |ts| ensures ts[j].id != id {
        assert ts[j] in ts;
      }
    }
  }

  /** Every track the list selector shows can be looked up by its id, and the
      lookup finds nothing the list does not hold. */
  lemma ListedTracksAreFound(st: AppState)
    ensures forall t :: t in SelectAllTracks(st) ==> SelectTrackById(t.id, st).Some?
    ensures forall id :: SelectTrackById(id, st).Some? ==> SelectTrackById(id, st).value in SelectAllTracks(st)
  {
  }
}
